=== FILE: README.md ===
# Face-attribute frame annotation — a Dafny model

This project models the per-frame decode-and-annotate step of a webcam
program that detects faces with an SSD face detector and labels each face
with an emotion, an age bracket and a gender using three classifier
networks (`main.go`). The step, taken out of the capture loop and stated as
pure functions:

1. **Detection decoding** (`Decoder`). The detector's output is a flat tensor
   of records `[batch, class, confidence, x1, y1, x2, y2]`. A record is kept
   when its confidence is strictly above 0.5 and the pixel box it gives lies
   strictly inside the frame. The box is made by scaling x by the column count
   and y by the row count, truncating toward zero, and normalising the
   corners with `image.Rect`. Boxes that touch or cross the border are
   dropped, never clamped.
2. **Label fusion** (`Labels`). Each classifier's score vector is reduced to
   the index of its first maximum. The gender, age and emotion indices are
   then looked up in fixed tables of 2, 8 and 7 labels. The texts come out
   in the order gender, age, emotion.
3. **Text layout** (`Layout`). Text `i` of a face is anchored at
   `(box.Max.X, box.Min.Y + (i+1)·h)`, where `h` is the measured text height.
4. **The frame step** (`Pipeline`) chains the three. Its outcome is either
   one annotation per decoded face or the fault of the first face that
   cannot be labelled.

`Geometry` holds the `image` package's `Point`, `Rectangle` and `Rect`, and
Go's float-to-int truncation. `Results` holds the `Option`/`Result`
wrappers. `Scenarios` works concrete frames and score vectors through the
model.

Modelling choices:
- Confidences and normalised coordinates are exact `real`s.
- Go's `int(f)` conversion is modelled exactly as truncation toward zero
  (`Geometry.Trunc`). It is not `Floor`, which differs for negative values.
- The classifiers are parameters of type `Rectangle -> seq<real>`. Cropping
  the face region and the forward pass are opaque.
- The measured text height is a parameter of type `string -> int`.
- `MinMaxLoc` is modelled as a first-maximum arg-max. An empty score vector
  is a fault (`EmptyScores`). A class index at or past the end of its table
  is a fault (`IndexOutOfRange`); in Go that index expression panics.
- Decoding is deterministic: `Decoder.DecodeTensor` computes a function of
  the tensor and the frame size alone. So decoding the same input twice
  gives the same detections.

The decoder clips nothing: it drops any box that touches column 0 or row 0
(`r.Min.X > 0 && r.Min.Y > 0`, main.go:121) or reaches past the last column
or row (`r.Max.X < cols && r.Max.Y < rows`, same line).
`Geometry.Interior` is that test.

## Model

| member | source | states |
|---|---|---|
| Geometry.Rect | main.go:119 | the rectangle built from two corners has Min ≤ Max on both axes and keeps the given coordinates, swapped where needed |
| Geometry.RectCanonical | main.go:119 | normalising a rectangle that is already canonical changes nothing, whichever corner is named first |
| Geometry.Trunc | main.go:115-118 | the converted pixel index is the integer next to the value on the side of zero: within 1 below a non-negative value, within 1 above a negative one |
| Geometry.TruncTowardZero | main.go:115-118 | truncation equals Floor for non-negative values, is one above Floor for negative non-integers, and is odd-symmetric |
| Geometry.Interior | main.go:121 | the acceptance test is strict on all four sides, so no canonical box passes it in a frame under two pixels wide or high |
| Geometry.InteriorInsideFrame | main.go:121 | every pixel of a canonical box that passes the interior test lies strictly inside the frame |
| Decoder.Records | main.go:111-118 | the tensor holds `len/7` records, and record k is read from positions 7k..7k+6 with confidence at offset 2 and x1, y1, x2, y2 at offsets 3-6 |
| Decoder.PixelInFrame | main.go:115-118 | a normalised coordinate in [0, 1) scaled and truncated lands on a pixel of the frame; a coordinate of exactly 1 lands one past the last pixel |
| Decoder.BoxOfSpans | main.go:115-119 | a record's pixel box spans, on each axis, from the smaller to the larger of its two truncated coordinates, whichever order the record gives them in |
| Decoder.Candidates | main.go:111-119 | one candidate per record, numbered by its position and carrying its confidence; its box is canonical and spans, on each axis, from the smaller to the larger of the record's two truncated coordinates, whichever order the record gives them in |
| Decoder.Decode | main.go:111-121 | filtering never emits more detections than there are records |
| Decoder.DecodeFrame | main.go:111-121 | the whole decoder (records, then candidates, then the filter) emits detections from strictly increasing record numbers, so at most one per record and in tensor order, and never more than there are records; which records it emits, and with what, is stated by DecodeFrameSound and DecodeFrameRecord |
| Decoder.DecodeSound | main.go:111-121 | every emitted detection is an unmodified candidate with confidence above 0.5 and a box strictly inside the frame; detections keep tensor order and come from distinct records |
| Decoder.DecodeComplete | main.go:114-121 | a record is emitted if and only if it passes both tests, so a rejected record leaves nothing in the output |
| Decoder.DecodeFrameSound | main.go:111-121 | every detection of a frame has confidence above 0.5 and a canonical box strictly inside the frame |
| Decoder.CandidateAt | main.go:111-119 | the candidate for record k takes its confidence from position 7k+2 and its box from positions 7k+3..7k+6 |
| Decoder.ScannedIsDecode | main.go:111-121 | after visiting k records by offset, the loop has emitted exactly the decoding of the first k records |
| Decoder.DecodeFrameRecord | main.go:111-121 | on the flat tensor, record k is emitted exactly when offset 2 exceeds 0.5 and the box from offsets 3-6 is interior, and then with that confidence and that box |
| Decoder.DecodeTensor | main.go:111-121 | the stride-7 loop over the tensor computes exactly the filter-map decoding, so it is deterministic in tensor and frame size |
| Labels.FirstMaxUnique | main.go:129 | a score vector has at most one first-maximum position |
| Labels.ScanMax | main.go:129 | scanning left to right and replacing the best index only on a strictly greater score ends at the first maximum |
| Labels.ArgMax | main.go:129-141 | an arg-max exists exactly for a non-empty score vector, and it is the first maximum |
| Labels.Classify | main.go:129-141 | a classifier's class index is the first maximum of its scores; empty scores fault for that attribute |
| Labels.Lookup | main.go:143 | a table lookup succeeds exactly for an index below the table's length, and otherwise faults with that index; a text it returns is the entry of that index and of no other index of the table |
| Labels.FaceLabels | main.go:124-143 | a face gets three texts, gender then age then emotion, each from its own attribute's table; this happens exactly when all three score vectors are labellable |
| Labels.FaceLabelsNameFirstMax | main.go:129-143 | each of the three texts is the table entry at its classifier's first maximum |
| Labels.FaceLabelsFirstFault | main.go:124-143 | a failing face reports the first fault in the model's order: an empty score vector, placed at the arg-max calls in the order they run (emotion, age, gender; main.go:129, 135, 141), then an index past its table in the lexical order of main.go:143 (gender, age, emotion), an order Go itself leaves unspecified |
| Labels.AlignedIsLabellable | main.go:143 | a non-empty score vector no longer than its table can always be labelled |
| Labels.TableSizes | main.go:19-27 | the tables have 7 emotions, 8 ages and 2 genders |
| Labels.TableInjective | main.go:19-27 | no table repeats a label, so a text names exactly one class index |
| Layout.Anchors | main.go:145-147 | there is one anchor per text, each on the box's right edge |
| Layout.AnchorsStacked | main.go:145-147 | with one positive text height h, anchor i is at top + (i+1)·h; consecutive anchors are exactly h apart and strictly increasing; all lie in (top, top + n·h] |
| Pipeline.AnnotateFace | main.go:121-149 | a face is annotated exactly when its three score vectors are labellable; then it has its own box, the three texts its own classifier scores select (gender, age, emotion, each the table entry at that score vector's first maximum) and the layout's anchors for them |
| Pipeline.AnnotateAll | main.go:111-158 | a frame annotates exactly when every face is labellable, and then with one annotation per face, in order, each carrying that face's box, the texts that face's scores select and their anchors |
| Pipeline.AnnotateAllFirstFault | main.go:111-158 | when every face before face i is labellable and face i is not, the frame fails with exactly face i's fault |
| Pipeline.AnnotateFrame | main.go:111-158 | a frame annotates exactly when every decoded face is labellable; then annotation i annotates decoded face i (its box, the three texts that face's own classifier scores select, their anchors), and each box is canonical and strictly inside the frame |
| Pipeline.AlignedFrameSucceeds | main.go:124-143 | when every classifier returns a non-empty vector no longer than its table, every frame annotates without fault |
| Scenarios.OneFaceFrame | main.go:111-143 | the record `[0,0,0.9,0.1,0.1,0.5,0.5]` on a 100×100 frame yields exactly the box (10,10)-(50,50) and one annotation of three texts |
| Scenarios.BoundaryRecordsDropped | main.go:114-121 | confidence exactly 0.5, or a left edge on column 0, leaves no detection |
| Scenarios.SwappedCornersKept | main.go:119 | a box with swapped corners is normalised and kept |
| Scenarios.ZeroWidthBoxKept | main.go:119-121 | a box whose two x coordinates truncate to the same column passes the interior test with zero width |
| Scenarios.ArgMaxExamples | main.go:129 | `[0.1,0.9,0.3]` selects index 1; the tie `[0.5,0.5]` selects index 0; the empty vector selects nothing |
| Scenarios.FaceLabelsExample | main.go:143 | scores peaking at Male, 20-36 and Happy give `["Male","20-36","Happy"]` |
| Scenarios.MisalignedGenderFaults | main.go:143 | a winning third gender output faults with an out-of-range index |
| Scenarios.LayoutExample | main.go:145-147 | top 50, right 200, height 20 gives anchors (200,70), (200,90), (200,110) |
| Scenarios.TruncNegativeExample | main.go:115 | -0.5 truncates to 0, while its Floor is -1 |

## Left out

- Video capture, the window, the key poll and the loop around frames (main.go:32-43, 93-100, 163-166). These are device and UI I/O. The end-of-stream and empty-frame branches are not modelled.
- Model loading and backend selection (main.go:46-83). This is library state. The check at main.go:67 tests `emotionNet.Empty()` where `ageNet.Empty()` is evidently meant, so a failed age model load goes unnoticed. This sits outside the modelled step.
- Blob construction, the forward passes and `MinMaxLoc`'s internals (main.go:103-109, 124-141). These are opaque network calls, so each classifier is a parameter from the face box to a score vector. In the source, the crop is taken from the frame after the box has been drawn on it (main.go:122-123), and after the texts of earlier faces have been drawn. A classifier that is a function of the box alone cannot express that dependence.
- Labels.ArgMax: the tie-break is fixed as "first maximum". The source leaves it to OpenCV's `MinMaxLoc`. What `MinMaxLoc` returns for an empty matrix is not visible in the source either, and the model reports a fault for it.
- `GetTextSize`, `PutText` and `Rectangle` (main.go:122, 146-148). These are rendering. The text height is a parameter. The source measures text in one font (`FontItalic`) and draws it in another (`FontHersheyComplexSmall`); the model does not see fonts.
- The `Close` calls (main.go:151-155, 160-161). They release native memory.
- Float32 rounding of the products at main.go:115-118 is not modelled. Go's conversion of out-of-range floats to `int` is implementation-defined, and the model uses exact reals and unbounded integers for it. The 64-bit `int` arithmetic of main.go:147 is unbounded here.
- Decoder.DecodeTensor: requires the tensor to hold whole records (length a multiple of 7). A trailing partial record would be read past the end of the detector's buffer (main.go:111-118), and that read has no defined behaviour to model.
- What `img.Region` and the classifiers do with a zero-area box is outside the model. `Scenarios.ZeroWidthBoxKept` shows that such boxes reach that point.

=== FILE: decoder.dfy ===
/** The detection decoder: the face detector's flat output tensor, read as
    records of seven values, filtered to confident boxes strictly inside the
    frame (main.go:111-121). */
module Decoder {
  import opened Geometry

  /** Number of values per detector record. */
  const Stride: nat := 7

  /** A record is kept only when its confidence is strictly above this. */
  const Threshold: real := 0.5

  /** One detector record, in tensor order: `[batch, class, confidence, x1, y1, x2, y2]`,
      the four coordinates normalised to the frame size. */
  datatype Record = Record(batch: real, classId: real, confidence: real,
                           x1: real, y1: real, x2: real, y2: real)

  /** The tensor read as consecutive records; a trailing partial record is
      not a record. */
  function Records(t: seq<real>): (rs: seq<Record>)
    ensures |rs| == |t| / Stride
    ensures forall k :: 0 <= k < |rs| ==>
      rs[k] == Record(t[Stride * k], t[Stride * k + 1], t[Stride * k + 2], t[Stride * k + 3],
                      t[Stride * k + 4], t[Stride * k + 5], t[Stride * k + 6])
    decreases |t|
  {
    if |t| < Stride then []
    else [Record(t[0], t[1], t[2], t[3], t[4], t[5], t[6])] + Records(t[Stride..])
  }

  /** A normalised coordinate scaled by a frame dimension and truncated to
      an integer pixel index. */
  function Pixel(v: real, size: int): int {
    Trunc(v * size as real)
  }

  /** A normalised coordinate in [0, 1) lands on a pixel of the frame, and
      a coordinate of exactly 1 lands one past the last pixel. */
  lemma PixelInFrame(v: real, size: int)
    requires size > 0
    ensures 0.0 <= v < 1.0 ==> 0 <= Pixel(v, size) < size
    ensures Pixel(1.0, size) == size
  {
  }

  /** Pixel box of a record: x scaled by the column count, y by the row count,
      each truncated to an integer, then normalised by image.Rect. */
  function BoxOf(r: Record, cols: int, rows: int): Rectangle {
    Rect(Pixel(r.x1, cols), Pixel(r.y1, rows), Pixel(r.x2, cols), Pixel(r.y2, rows))
  }

  /** A record's box spans, on each axis, from the smaller to the larger of
      its two pixel coordinates, whichever order the record gives them in. */
  lemma BoxOfSpans(r: Record, cols: int, rows: int)
    ensures WellFormed(BoxOf(r, cols, rows))
    ensures BoxOf(r, cols, rows).min.x == Min(Pixel(r.x1, cols), Pixel(r.x2, cols))
    ensures BoxOf(r, cols, rows).max.x == Max(Pixel(r.x1, cols), Pixel(r.x2, cols))
    ensures BoxOf(r, cols, rows).min.y == Min(Pixel(r.y1, rows), Pixel(r.y2, rows))
    ensures BoxOf(r, cols, rows).max.y == Max(Pixel(r.y1, rows), Pixel(r.y2, rows))
  {
  }

  /** An emitted face: the index of the record it came from, its confidence
      and its pixel box. */
  datatype Detection = Detection(record: nat, confidence: real, box: Rectangle)

  /** The decoder's acceptance test: confidence strictly above the threshold
      and a box strictly inside the frame. */
  predicate Accepted(d: Detection, cols: int, rows: int) {
    d.confidence > Threshold && Interior(d.box, cols, rows)
  }

  /** Every record turned into a candidate detection, before any filtering:
      one candidate per record, numbered by position, with the record's
      confidence and a canonical box that spans, on each axis, the smaller
      to the larger of the record's two truncated coordinates
      (`CandidateAt` reads the same candidate off the tensor). */
  function Candidates(rs: seq<Record>, cols: int, rows: int): (cs: seq<Detection>)
    ensures |cs| == |rs|
    ensures forall k :: 0 <= k < |cs| ==>
      cs[k] == Detection(k, rs[k].confidence, BoxOf(rs[k], cols, rows))
    ensures forall k :: 0 <= k < |cs| ==>
      && WellFormed(cs[k].box)
      && cs[k].box.min.x == Min(Pixel(rs[k].x1, cols), Pixel(rs[k].x2, cols))
      && cs[k].box.max.x == Max(Pixel(rs[k].x1, cols), Pixel(rs[k].x2, cols))
      && cs[k].box.min.y == Min(Pixel(rs[k].y1, rows), Pixel(rs[k].y2, rows))
      && cs[k].box.max.y == Max(Pixel(rs[k].y1, rows), Pixel(rs[k].y2, rows))
  {
    seq(|rs|, k requires 0 <= k < |rs| => Detection(k, rs[k].confidence, BoxOf(rs[k], cols, rows)))
  }

  /** Candidates numbered by their position, as `Candidates` produces them. */
  predicate Numbered(cs: seq<Detection>) {
    forall k :: 0 <= k < |cs| ==> cs[k].record == k
  }

  /** The filter half of decoding: the accepted candidates, in order. */
  function Decode(cs: seq<Detection>, cols: int, rows: int): (ds: seq<Detection>)
    requires Numbered(cs)
    ensures |ds| <= |cs|
  {
    if |cs| == 0 then []
    else
      var k := |cs| - 1;
      Decode(cs[..k], cols, rows) + (if Accepted(cs[k], cols, rows) then [cs[k]] else [])
  }

  /** Each decoded detection is an accepted candidate, unmodified (never
      clamped); detections come from distinct records and keep tensor
      order. */
  lemma {:induction false} DecodeSound(cs: seq<Detection>, cols: int, rows: int)
    requires Numbered(cs)
    ensures forall j :: 0 <= j < |Decode(cs, cols, rows)| ==>
      var d := Decode(cs, cols, rows)[j];
      d.record < |cs| && d == cs[d.record] && Accepted(d, cols, rows)
    ensures forall j, j' :: 0 <= j < j' < |Decode(cs, cols, rows)| ==>
      Decode(cs, cols, rows)[j].record < Decode(cs, cols, rows)[j'].record
  {
    if |cs| > 0 {
      var n := |cs| - 1;
      var prefix := Decode(cs[..n], cols, rows);
      DecodeSound(cs[..n], cols, rows);
      assert forall j :: 0 <= j < |prefix| ==> cs[..n][prefix[j].record] == cs[prefix[j].record];
    }
  }

  /** Some detection of `ds` comes from record `k`. */
  predicate Emitted(ds: seq<Detection>, k: nat) {
    exists j :: 0 <= j < |ds| && ds[j].record == k
  }

  /** Every accepted candidate yields a detection, and no other does: a box
      touching or crossing the frame's border, or a confidence of 0.5 or
      less, leaves nothing in the output. */
  lemma {:induction false} DecodeComplete(cs: seq<Detection>, cols: int, rows: int, k: nat)
    requires Numbered(cs)
    requires k < |cs|
    ensures Accepted(cs[k], cols, rows) <==> Emitted(Decode(cs, cols, rows), k)
    ensures forall d :: d in Decode(cs, cols, rows) && d.record == k ==> d == cs[k]
  {
    var n := |cs| - 1;
    var prefix := Decode(cs[..n], cols, rows);
    var ds := Decode(cs, cols, rows);
    assert ds == prefix + (if Accepted(cs[n], cols, rows) then [cs[n]] else []);
    DecodeSound(cs[..n], cols, rows);
    if k < n {
      DecodeComplete(cs[..n], cols, rows, k);
      assert cs[..n][k] == cs[k];
      if Accepted(cs[k], cols, rows) {
        var j :| 0 <= j < |prefix| && prefix[j].record == k;
        assert ds[j] == prefix[j];
      } else {
        forall j | 0 <= j < |ds|
          ensures ds[j].record != k
        {
          if j < |prefix| {
            assert ds[j] == prefix[j];
          } else {
            assert ds[j] == cs[n];
          }
        }
      }
    } else {
      if Accepted(cs[k], cols, rows) {
        assert ds[|prefix|] == cs[k];
      } else {
        assert ds == prefix;
      }
    }
  }

  /** Decoding one more candidate extends the output by at most that
      candidate. */
  lemma DecodeStep(cs: seq<Detection>, k: nat, cols: int, rows: int)
    requires Numbered(cs)
    requires k < |cs|
    ensures Decode(cs[..k + 1], cols, rows) ==
      Decode(cs[..k], cols, rows) + (if Accepted(cs[k], cols, rows) then [cs[k]] else [])
  {
    assert cs[..k + 1][..k] == cs[..k];
    assert cs[..k + 1][k] == cs[k];
  }

  /** The whole decoder: map every record of the tensor to a candidate, keep
      the accepted ones. */
  function DecodeFrame(t: seq<real>, cols: int, rows: int): (ds: seq<Detection>)
    requires |t| % Stride == 0
    ensures |ds| <= |t| / Stride
    ensures forall j, j' :: 0 <= j < j' < |ds| ==> ds[j].record < ds[j'].record
  {
    DecodeSound(Candidates(Records(t), cols, rows), cols, rows);
    Decode(Candidates(Records(t), cols, rows), cols, rows)
  }

  /** Every detection of a frame has confidence above 0.5 and a canonical
      box strictly inside the frame. */
  lemma DecodeFrameSound(t: seq<real>, cols: int, rows: int)
    requires |t| % Stride == 0
    ensures forall d :: d in DecodeFrame(t, cols, rows) ==>
      d.confidence > Threshold && WellFormed(d.box) && Interior(d.box, cols, rows)
  {
    var rs := Records(t);
    var cs := Candidates(rs, cols, rows);
    DecodeSound(cs, cols, rows);
    forall d | d in Decode(cs, cols, rows)
      ensures WellFormed(d.box)
    {
      assert d == cs[d.record];
      assert d.box == BoxOf(rs[d.record], cols, rows);
    }
  }

  /** The box the source builds from the four coordinates of the record
      starting at position `i`. */
  function TensorBox(t: seq<real>, i: nat, cols: int, rows: int): Rectangle
    requires i + Stride <= |t|
  {
    Rect(Pixel(t[i + 3], cols), Pixel(t[i + 4], rows), Pixel(t[i + 5], cols), Pixel(t[i + 6], rows))
  }

  /** The candidate for record `k`, read straight off the tensor at
      `i == Stride * k`. */
  lemma CandidateAt(t: seq<real>, cols: int, rows: int, k: nat, i: nat)
    requires i == Stride * k && i + Stride <= |t|
    ensures k < |Candidates(Records(t), cols, rows)|
    ensures Candidates(Records(t), cols, rows)[k] == Detection(k, t[i + 2], TensorBox(t, i, cols, rows))
  {
  }

  /** What the decoding loop has emitted after visiting the first `k`
      records of the tensor, read by offset as the loop reads them. */
  function Scanned(t: seq<real>, k: nat, cols: int, rows: int): seq<Detection>
    requires Stride * k <= |t|
  {
    if k == 0 then []
    else
      var i := Stride * (k - 1);
      var d := Detection(k - 1, t[i + 2], TensorBox(t, i, cols, rows));
      Scanned(t, k - 1, cols, rows) + (if Accepted(d, cols, rows) then [d] else [])
  }

  /** Reading records by offset agrees with decoding the candidates: after
      `k` records the loop has emitted exactly the decoding of the first `k`
      candidates. */
  lemma {:induction false} ScannedIsDecode(t: seq<real>, k: nat, cols: int, rows: int)
    requires Stride * k <= |t|
    ensures k <= |Candidates(Records(t), cols, rows)|
    ensures Scanned(t, k, cols, rows) == Decode(Candidates(Records(t), cols, rows)[..k], cols, rows)
  {
    if k > 0 {
      var cs := Candidates(Records(t), cols, rows);
      ScannedIsDecode(t, k - 1, cols, rows);
      CandidateAt(t, cols, rows, k - 1, Stride * (k - 1));
      DecodeStep(cs, k - 1, cols, rows);
    }
  }

  /** Once every record has been visited, the loop's output is the whole
      decoding. */
  lemma ScannedAll(t: seq<real>, n: nat, cols: int, rows: int)
    requires Stride * n == |t|
    ensures Scanned(t, n, cols, rows) == Decode(Candidates(Records(t), cols, rows), cols, rows)
  {
    var cs := Candidates(Records(t), cols, rows);
    ScannedIsDecode(t, n, cols, rows);
    assert cs[..n] == cs;
  }

  /** The decoding loop over the flat tensor, stepping by the record stride
      and reading fields by offset (main.go:111-121). It computes exactly
      `DecodeFrame`, so decoding the same tensor and frame size twice yields
      the same detections. */
  method DecodeTensor(t: seq<real>, cols: int, rows: int) returns (ds: seq<Detection>)
    requires |t| % Stride == 0
    ensures ds == Decode(Candidates(Records(t), cols, rows), cols, rows)
  {
    ghost var k: nat := 0;
    ghost var n := |t| / Stride;
    assert |t| == Stride * n;
    ds := [];
    var i := 0;
    while i < |t|
      invariant i == Stride * k && k <= n
      invariant ds == Scanned(t, k, cols, rows)
    {
      assert i / Stride == k;
      var confidence := t[i + 2];
      if confidence > Threshold {
        var left := Pixel(t[i + 3], cols);
        var top := Pixel(t[i + 4], rows);
        var right := Pixel(t[i + 5], cols);
        var bottom := Pixel(t[i + 6], rows);
        var r := Rect(left, top, right, bottom);
        assert r == TensorBox(t, i, cols, rows);
        if r.max.x < cols && r.max.y < rows && r.min.x > 0 && r.min.y > 0 {
          ds := ds + [Detection(i / Stride, confidence, r)];
        }
      }
      i := i + Stride;
      k := k + 1;
    }
    assert k == n;
    ScannedAll(t, n, cols, rows);
  }

  /** Decoding stated against the flat tensor: record `k` occupies positions
      7k..7k+6; it is emitted exactly when the value at offset 2 is strictly
      above 0.5 and the box built from offsets 3-6 lies strictly inside the
      frame, and then with that confidence and that box. */
  lemma DecodeFrameRecord(t: seq<real>, cols: int, rows: int, k: nat)
    requires |t| % Stride == 0
    requires k < |t| / Stride
    ensures Emitted(DecodeFrame(t, cols, rows), k) <==>
      t[Stride * k + 2] > Threshold && Interior(TensorBox(t, Stride * k, cols, rows), cols, rows)
    ensures forall d :: d in DecodeFrame(t, cols, rows) && d.record == k ==>
      d.confidence == t[Stride * k + 2] && d.box == TensorBox(t, Stride * k, cols, rows)
  {
    CandidateAt(t, cols, rows, k, Stride * k);
    DecodeComplete(Candidates(Records(t), cols, rows), cols, rows, k);
  }
}

=== FILE: geometry.dfy ===
/** Integer pixel geometry as the Go `image` package defines it, plus the
    float-to-int conversion the decoder applies to scaled coordinates. */
module Geometry {

  /** image.Point */
  datatype Point = Pt(x: int, y: int)

  /** image.Rectangle: `min` is the top-left corner, `max` the bottom-right. */
  datatype Rectangle = Rectangle(min: Point, max: Point)

  /** A rectangle whose corners are in canonical order. */
  predicate WellFormed(r: Rectangle) {
    r.min.x <= r.max.x && r.min.y <= r.max.y
  }

  /** image.Rect: builds a rectangle from two corners given in any order,
      swapping coordinates so that min <= max on each axis. */
  function Rect(x0: int, y0: int, x1: int, y1: int): (r: Rectangle)
    ensures WellFormed(r)
    ensures (r.min.x == x0 && r.max.x == x1) || (r.min.x == x1 && r.max.x == x0)
    ensures (r.min.y == y0 && r.max.y == y1) || (r.min.y == y1 && r.max.y == y0)
  {
    var swapX := x0 > x1;
    var swapY := y0 > y1;
    Rectangle(Pt(if swapX then x1 else x0, if swapY then y1 else y0),
              Pt(if swapX then x0 else x1, if swapY then y0 else y1))
  }

  /** Rect leaves a rectangle that is already canonical unchanged, and does
      not depend on which of the two corners is named first. */
  lemma RectCanonical(r: Rectangle)
    requires WellFormed(r)
    ensures Rect(r.min.x, r.min.y, r.max.x, r.max.y) == r
    ensures Rect(r.max.x, r.max.y, r.min.x, r.min.y) == r
  {
  }

  /** Go's `int(f)` conversion: truncation toward zero. For negative
      non-integral values this differs from Floor. */
  function Trunc(x: real): (n: int)
    ensures 0.0 <= x ==> n as real <= x < n as real + 1.0
    ensures x < 0.0 ==> n as real - 1.0 < x <= n as real
  {
    if x >= 0.0 then x.Floor else -((-x).Floor)
  }

  /** Truncation rounds toward zero, not downward. */
  lemma TruncTowardZero(x: real)
    ensures 0.0 <= x ==> Trunc(x) == x.Floor
    ensures x < 0.0 && x.Floor as real != x ==> Trunc(x) == x.Floor + 1
    ensures Trunc(-x) == -Trunc(x)
  {
  }

  /** The detector's acceptance test: every side strictly inside a frame of
      `cols` x `rows` pixels. A box touching column 0 or row 0, or reaching
      column `cols` or row `rows`, fails it; so a frame narrower or shorter
      than two pixels keeps no canonical box. */
  predicate Interior(r: Rectangle, cols: int, rows: int)
    ensures Interior(r, cols, rows) && WellFormed(r) ==> cols >= 2 && rows >= 2
  {
    r.max.x < cols && r.max.y < rows && r.min.x > 0 && r.min.y > 0
  }

  /** The smaller and the larger of two coordinates. */
  function Min(a: int, b: int): int { if a <= b then a else b }

  function Max(a: int, b: int): int { if a <= b then b else a }

  /** Inclusive containment of a pixel in a rectangle. */
  predicate Covers(r: Rectangle, p: Point) {
    r.min.x <= p.x <= r.max.x && r.min.y <= p.y <= r.max.y
  }

  /** A canonical interior rectangle lies, with all its border pixels, inside
      the frame [0, cols) x [0, rows) and away from the frame's edge. */
  lemma InteriorInsideFrame(r: Rectangle, cols: int, rows: int, p: Point)
    requires WellFormed(r) && Interior(r, cols, rows)
    requires Covers(r, p)
    ensures 0 < p.x < cols && 0 < p.y < rows
  {
  }
}

=== FILE: labels.dfy ===
/** Label fusion: the three attribute tables (main.go:19, 23, 27), the
    arg-max that picks a class from a classifier's score vector (the
    MinMaxLoc calls of main.go:129, 135, 141), and the table lookup that
    turns the three class indices into the face's texts (main.go:143). */
module Labels {
  import opened Results

  /** The three classified attributes of a face. */
  datatype Attribute = Emotion | Age | Gender

  const Emotions: seq<string> := ["Angry", "Disgust", "Fear", "Happy", "Neutral", "Sad", "Surprise"]
  const Ages: seq<string> := ["0-2", "3-7", "8-12", "13-20", "20-36", "37-47", "48-55", "56-100"]
  const Genders: seq<string> := ["Male", "Female"]

  /** The label table bound to an attribute's classifier. */
  function Table(a: Attribute): seq<string> {
    match a
    case Emotion => Emotions
    case Age => Ages
    case Gender => Genders
  }

  /** The order in which a face's labels are stacked on screen. */
  const PresentationOrder: seq<Attribute> := [Gender, Age, Emotion]

  /** Why labelling a face can fail. An empty score vector has no arg-max; a
      class index at or past the end of its table is an out-of-range index
      expression, which panics in the source. */
  datatype Fault = EmptyScores(attribute: Attribute) | IndexOutOfRange(attribute: Attribute, index: nat)

  /** `k` is the position of the first (lowest-index) maximum of `s`. */
  predicate IsFirstMax(s: seq<real>, k: int) {
    && 0 <= k < |s|
    && (forall j :: 0 <= j < |s| ==> s[j] <= s[k])
    && (forall j :: 0 <= j < k ==> s[j] < s[k])
  }

  /** The first maximum of a score vector is unique. */
  lemma FirstMaxUnique(s: seq<real>, a: int, b: int)
    requires IsFirstMax(s, a) && IsFirstMax(s, b)
    ensures a == b
  {
    assert s[a] <= s[b] && s[b] <= s[a];
  }

  /** The scan that finds the first maximum: `best` is the first maximum of
      `s[..i]`, and only a strictly greater score replaces it. */
  function ScanMax(s: seq<real>, i: nat, best: nat): (k: nat)
    requires best < i <= |s|
    requires forall j :: 0 <= j < i ==> s[j] <= s[best]
    requires forall j :: 0 <= j < best ==> s[j] < s[best]
    ensures IsFirstMax(s, k)
    decreases |s| - i
  {
    if i == |s| then best
    else if s[i] > s[best] then ScanMax(s, i + 1, i)
    else ScanMax(s, i + 1, best)
  }

  /** Arg-max of a score vector, ties going to the lowest index; none for an
      empty vector. */
  function ArgMax(s: seq<real>): (r: Option<nat>)
    ensures r.None? <==> |s| == 0
    ensures r.Some? ==> IsFirstMax(s, r.value)
  {
    if |s| == 0 then None else Some(ScanMax(s, 1, 0))
  }

  /** The class index a classifier's scores select. */
  function Classify(a: Attribute, scores: seq<real>): (r: Result<nat, Fault>)
    ensures r.Err? <==> |scores| == 0
    ensures r.Err? ==> r.error == EmptyScores(a)
    ensures r.Ok? ==> IsFirstMax(scores, r.value)
  {
    match ArgMax(scores)
    case None => Err(EmptyScores(a))
    case Some(k) => Ok(k)
  }

  /** Indexing an attribute's table, failing past its end. */
  function Lookup(a: Attribute, k: nat): (r: Result<string, Fault>)
    ensures r.Ok? <==> k < |Table(a)|
    ensures r.Ok? ==> r.value == Table(a)[k]
    ensures r.Err? ==> r.error == IndexOutOfRange(a, k)
    ensures r.Ok? ==> forall j :: 0 <= j < |Table(a)| && Table(a)[j] == r.value ==> j == k
  {
    if k < |Table(a)| then Ok(Table(a)[k]) else Err(IndexOutOfRange(a, k))
  }

  /** A score vector an attribute's table can label: non-empty, and its
      first maximum falls inside the table. */
  predicate Labellable(a: Attribute, scores: seq<real>) {
    |scores| > 0 && forall k :: 0 <= k < |scores| && IsFirstMax(scores, k) ==> k < |Table(a)|
  }

  /** The three texts of one face, from the emotion, age and gender score
      vectors. The arg-maxes are taken in the order the source runs its
      classifiers (emotion, age, gender); the texts are indexed, and come
      out, in presentation order (gender, age, emotion). */
  function FaceLabels(emotion: seq<real>, age: seq<real>, gender: seq<real>): (r: Result<seq<string>, Fault>)
    ensures r.Ok? <==> Labellable(Emotion, emotion) && Labellable(Age, age) && Labellable(Gender, gender)
    ensures r.Ok? ==> |r.value| == |PresentationOrder|
    ensures r.Ok? ==> forall i :: 0 <= i < |r.value| ==> r.value[i] in Table(PresentationOrder[i])
  {
    var e :- Classify(Emotion, emotion);
    var ag :- Classify(Age, age);
    var g :- Classify(Gender, gender);
    var genderText :- Lookup(Gender, g);
    var ageText :- Lookup(Age, ag);
    var emotionText :- Lookup(Emotion, e);
    Ok([genderText, ageText, emotionText])
  }

  /** Each text FaceLabels produces is the label of its attribute's first
      maximum: whichever index is the first maximum, the text is that
      index's entry. */
  lemma FaceLabelsNameFirstMax(emotion: seq<real>, age: seq<real>, gender: seq<real>)
    requires FaceLabels(emotion, age, gender).Ok?
    ensures forall k :: IsFirstMax(gender, k) ==> FaceLabels(emotion, age, gender).value[0] == Genders[k]
    ensures forall k :: IsFirstMax(age, k) ==> FaceLabels(emotion, age, gender).value[1] == Ages[k]
    ensures forall k :: IsFirstMax(emotion, k) ==> FaceLabels(emotion, age, gender).value[2] == Emotions[k]
  {
    var g := ArgMax(gender).value;
    var ag := ArgMax(age).value;
    var e := ArgMax(emotion).value;
    forall k | IsFirstMax(gender, k) ensures k == g { FirstMaxUnique(gender, k, g); }
    forall k | IsFirstMax(age, k) ensures k == ag { FirstMaxUnique(age, k, ag); }
    forall k | IsFirstMax(emotion, k) ensures k == e { FirstMaxUnique(emotion, k, e); }
  }

  /** The fault FaceLabels reports is the first one met in the model's
      order. The source never tests for an empty score vector; the model
      places that fault at the three arg-max calls, which run emotion, age,
      gender. An index past its table is checked next, in the lexical order
      of the three index expressions (gender, age, emotion); Go does not
      fix the order in which those expressions would panic. */
  lemma FaceLabelsFirstFault(emotion: seq<real>, age: seq<real>, gender: seq<real>)
    requires FaceLabels(emotion, age, gender).Err?
    ensures FaceLabels(emotion, age, gender).error ==
      if |emotion| == 0 then EmptyScores(Emotion)
      else if |age| == 0 then EmptyScores(Age)
      else if |gender| == 0 then EmptyScores(Gender)
      else if !Labellable(Gender, gender) then IndexOutOfRange(Gender, ArgMax(gender).value)
      else if !Labellable(Age, age) then IndexOutOfRange(Age, ArgMax(age).value)
      else IndexOutOfRange(Emotion, ArgMax(emotion).value)
  {
  }

  /** When a classifier's output is no longer than its table (the
      index-alignment contract between a model and its labels), labelling
      never fails. */
  lemma AlignedIsLabellable(a: Attribute, scores: seq<real>)
    requires 0 < |scores| <= |Table(a)|
    ensures Labellable(a, scores)
  {
  }

  /** The tables have 7 emotions, 8 age brackets and 2 genders. */
  lemma TableSizes()
    ensures |Table(Emotion)| == 7 && |Table(Age)| == 8 && |Table(Gender)| == 2
  {
  }

  /** Within a table no label repeats, so a text names exactly one class
      index. */
  lemma TableInjective(a: Attribute, i: nat, j: nat)
    requires i < |Table(a)| && j < |Table(a)|
    requires Table(a)[i] == Table(a)[j]
    ensures i == j
  {
  }
}

=== FILE: layout.dfy ===
/** Annotation layout: where each of a face's texts is drawn
    (main.go:145-147). */
module Layout {
  import opened Geometry

  /** Anchor points for `texts` next to `box`: text `i` sits at the box's
      right edge, `i + 1` text heights below its top edge. `height` is the
      text height the renderer measures for a string. */
  function Anchors(box: Rectangle, texts: seq<string>, height: string -> int): (pts: seq<Point>)
    ensures |pts| == |texts|
    ensures forall i :: 0 <= i < |pts| ==> pts[i].x == box.max.x
  {
    seq(|texts|, i requires 0 <= i < |texts| => Pt(box.max.x, box.min.y + (i + 1) * height(texts[i])))
  }

  /** With one positive text height `h` for every text, the anchors form a
      column at the box's right edge: the first is `h` below the top edge,
      each next one exactly `h` lower, so consecutive lines of height `h`
      neither overlap nor leave gaps, and all of them lie within
      `|texts| * h` of the top edge. */
  lemma AnchorsStacked(box: Rectangle, texts: seq<string>, height: string -> int, h: int)
    requires h > 0
    requires forall i :: 0 <= i < |texts| ==> height(texts[i]) == h
    ensures forall i :: 0 <= i < |texts| ==> Anchors(box, texts, height)[i].y == box.min.y + (i + 1) * h
    ensures forall i :: 0 < i < |texts| ==>
      Anchors(box, texts, height)[i].y == Anchors(box, texts, height)[i - 1].y + h
    ensures forall i, j :: 0 <= i < j < |texts| ==>
      Anchors(box, texts, height)[i].y < Anchors(box, texts, height)[j].y
    ensures forall i :: 0 <= i < |texts| ==>
      box.min.y < Anchors(box, texts, height)[i].y <= box.min.y + |texts| * h
  {
    var pts := Anchors(box, texts, height);
    forall i | 0 <= i < |texts|
      ensures pts[i].y == box.min.y + (i + 1) * h
      ensures box.min.y < pts[i].y <= box.min.y + |texts| * h
    {
      MulMonotone(i + 1, |texts|, h);
    }
    forall i, j | 0 <= i < j < |texts|
      ensures pts[i].y < pts[j].y
    {
      MulStrict(i + 1, j + 1, h);
    }
  }

  /** `a * h <= b * h` for `0 < a <= b` and positive `h`, and `a * h` is positive. */
  lemma MulMonotone(a: int, b: int, h: int)
    requires 0 < a <= b && h > 0
    ensures 0 < a * h <= b * h
  {
  }

  /** `a * h < b * h` for `a < b` and positive `h`. */
  lemma MulStrict(a: int, b: int, h: int)
    requires a < b && h > 0
    ensures a * h < b * h
  {
  }
}

=== FILE: pipeline.dfy ===
/** The per-frame annotation step (main.go:111-149): decode the detector's
    tensor, then for every face classify emotion, age and gender, turn the
    three class indices into texts and lay the texts out beside the box. */
module Pipeline {
  import opened Results
  import opened Geometry
  import opened Decoder
  import opened Labels
  import opened Layout

  /** The three classifiers as the frame step sees them: a face box of the
      current frame in (cropping and the forward pass are opaque), a score
      vector out. */
  datatype Classifiers = Classifiers(emotion: Rectangle -> seq<real>,
                                     age: Rectangle -> seq<real>,
                                     gender: Rectangle -> seq<real>)

  /** What the frame step draws for one face: its box, its texts in
      presentation order, and one anchor point per text. */
  datatype Annotation = Annotation(box: Rectangle, texts: seq<string>, anchors: seq<Point>)

  /** All three classifiers give the face at `box` a score vector their
      tables can label. */
  predicate FaceLabellable(c: Classifiers, box: Rectangle) {
    Labellable(Emotion, c.emotion(box)) && Labellable(Age, c.age(box)) && Labellable(Gender, c.gender(box))
  }

  /** An annotation of the face at `box`: three texts, each from its
      attribute's table in presentation order and each the label this
      face's own classifier scores select, anchored by the layout. */
  predicate Annotates(a: Annotation, c: Classifiers, box: Rectangle, height: string -> int) {
    && a.box == box
    && FaceLabels(c.emotion(box), c.age(box), c.gender(box)) == Ok(a.texts)
    && a.anchors == Anchors(box, a.texts, height)
  }

  /** Classify one detected face and lay out its texts. */
  function AnnotateFace(d: Detection, c: Classifiers, height: string -> int): (r: Result<Annotation, Fault>)
    ensures r.Ok? <==> FaceLabellable(c, d.box)
    ensures r.Ok? ==> Annotates(r.value, c, d.box, height)
  {
    var texts :- FaceLabels(c.emotion(d.box), c.age(d.box), c.gender(d.box));
    Ok(Annotation(d.box, texts, Anchors(d.box, texts, height)))
  }

  /** Annotate the faces in detection order. The first face whose labelling
      faults ends the frame with that fault. */
  function AnnotateAll(ds: seq<Detection>, c: Classifiers, height: string -> int): (r: Result<seq<Annotation>, Fault>)
    ensures r.Ok? <==> forall i :: 0 <= i < |ds| ==> FaceLabellable(c, ds[i].box)
    ensures r.Ok? ==> |r.value| == |ds|
    ensures r.Ok? ==> forall i :: 0 <= i < |ds| ==> Annotates(r.value[i], c, ds[i].box, height)
  {
    if |ds| == 0 then Ok([])
    else
      var first :- AnnotateFace(ds[0], c, height);
      var rest :- AnnotateAll(ds[1..], c, height);
      Ok([first] + rest)
  }

  /** A frame that faults reports the fault of its first face that cannot
      be labelled: when faces before `i` are all labellable and face `i` is
      not, the frame's fault is face `i`'s. */
  lemma {:induction false} AnnotateAllFirstFault(ds: seq<Detection>, c: Classifiers, height: string -> int, i: nat)
    requires i < |ds|
    requires forall j :: 0 <= j < i ==> FaceLabellable(c, ds[j].box)
    requires !FaceLabellable(c, ds[i].box)
    ensures AnnotateAll(ds, c, height).Err?
    ensures AnnotateFace(ds[i], c, height).Err?
    ensures AnnotateAll(ds, c, height).error == AnnotateFace(ds[i], c, height).error
  {
    if i > 0 {
      var tail := ds[1..];
      assert FaceLabellable(c, ds[0].box);
      assert forall j :: 0 <= j < i - 1 ==> tail[j] == ds[j + 1];
      AnnotateAllFirstFault(tail, c, height, i - 1);
      assert tail[i - 1] == ds[i];
    }
  }

  /** The whole per-frame step on the detector's tensor and the frame size. */
  function AnnotateFrame(t: seq<real>, cols: int, rows: int, c: Classifiers, height: string -> int): (r: Result<seq<Annotation>, Fault>)
    requires |t| % Stride == 0
    ensures r.Ok? <==> forall i :: 0 <= i < |DecodeFrame(t, cols, rows)| ==>
      FaceLabellable(c, DecodeFrame(t, cols, rows)[i].box)
    ensures r.Ok? ==> |r.value| == |DecodeFrame(t, cols, rows)|
    ensures r.Ok? ==> forall i :: 0 <= i < |r.value| ==>
      Annotates(r.value[i], c, DecodeFrame(t, cols, rows)[i].box, height)
    ensures r.Ok? ==> forall i :: 0 <= i < |r.value| ==>
      WellFormed(r.value[i].box) && Interior(r.value[i].box, cols, rows) &&
      |r.value[i].texts| == 3 && |r.value[i].anchors| == 3
  {
    DecodeFrameSound(t, cols, rows);
    AnnotateAll(DecodeFrame(t, cols, rows), c, height)
  }

  /** Classifiers whose score vectors are never empty and never longer than
      their tables (the index-alignment contract between each model and its
      label table) make every frame annotate without fault, with one
      annotation of three texts per decoded face. */
  lemma AlignedFrameSucceeds(t: seq<real>, cols: int, rows: int, c: Classifiers, height: string -> int)
    requires |t| % Stride == 0
    requires forall b :: 0 < |c.emotion(b)| <= |Emotions|
    requires forall b :: 0 < |c.age(b)| <= |Ages|
    requires forall b :: 0 < |c.gender(b)| <= |Genders|
    ensures AnnotateFrame(t, cols, rows, c, height).Ok?
    ensures |AnnotateFrame(t, cols, rows, c, height).value| == |DecodeFrame(t, cols, rows)|
  {
    var ds := DecodeFrame(t, cols, rows);
    forall i | 0 <= i < |ds|
      ensures FaceLabellable(c, ds[i].box)
    {
      var b := ds[i].box;
      AlignedIsLabellable(Emotion, c.emotion(b));
      AlignedIsLabellable(Age, c.age(b));
      AlignedIsLabellable(Gender, c.gender(b));
    }
  }
}

=== FILE: results.dfy ===
/** Failure-compatible wrappers used by the pipeline: an optional value and a
    value-or-fault result that works with Dafny's `:-` operator. */
module Results {

  datatype Option<+T> = None | Some(value: T)

  datatype Result<+T, +E> = Ok(value: T) | Err(error: E) {

    predicate IsFailure() {
      Err?
    }

    function PropagateFailure<U>(): Result<U, E>
      requires Err?
    {
      Err(error)
    }

    function Extract(): T
      requires Ok?
    {
      value
    }
  }
}

=== FILE: scenarios.dfy ===
/** Concrete frames and score vectors worked through the model. */
module Scenarios {
  import opened Results
  import opened Geometry
  import opened Decoder
  import opened Labels
  import opened Layout
  import opened Pipeline

  /** One confident record on a 100 x 100 frame yields exactly one face,
      box (10, 10)-(50, 50); with well-aligned classifiers it gets exactly
      one annotation of three texts. */
  lemma OneFaceFrame(c: Classifiers, height: string -> int)
    requires forall b :: 0 < |c.emotion(b)| <= |Emotions|
    requires forall b :: 0 < |c.age(b)| <= |Ages|
    requires forall b :: 0 < |c.gender(b)| <= |Genders|
    ensures DecodeFrame([0.0, 0.0, 0.9, 0.1, 0.1, 0.5, 0.5], 100, 100) ==
            [Detection(0, 0.9, Rectangle(Pt(10, 10), Pt(50, 50)))]
    ensures AnnotateFrame([0.0, 0.0, 0.9, 0.1, 0.1, 0.5, 0.5], 100, 100, c, height).Ok?
    ensures |AnnotateFrame([0.0, 0.0, 0.9, 0.1, 0.1, 0.5, 0.5], 100, 100, c, height).value| == 1
    ensures |AnnotateFrame([0.0, 0.0, 0.9, 0.1, 0.1, 0.5, 0.5], 100, 100, c, height).value[0].texts| == 3
  {
    var t := [0.0, 0.0, 0.9, 0.1, 0.1, 0.5, 0.5];
    var rs := Records(t);
    assert rs == [Record(0.0, 0.0, 0.9, 0.1, 0.1, 0.5, 0.5)];
    var cs := Candidates(rs, 100, 100);
    assert cs == [Detection(0, 0.9, Rectangle(Pt(10, 10), Pt(50, 50)))];
    DecodeComplete(cs, 100, 100, 0);
    AlignedFrameSucceeds(t, 100, 100, c, height);
  }

  /** A confidence of exactly 0.5 is rejected, and so is a box whose left
      edge lands on column 0: neither leaves a detection. */
  lemma BoundaryRecordsDropped()
    ensures DecodeFrame([0.0, 0.0, 0.5, 0.1, 0.1, 0.5, 0.5], 100, 100) == []
    ensures DecodeFrame([0.0, 0.0, 0.9, 0.0, 0.1, 0.5, 0.5], 100, 100) == []
  {
    var t1 := [0.0, 0.0, 0.5, 0.1, 0.1, 0.5, 0.5];
    var t2 := [0.0, 0.0, 0.9, 0.0, 0.1, 0.5, 0.5];
    DecodeFrameRecord(t1, 100, 100, 0);
    DecodeFrameRecord(t2, 100, 100, 0);
  }

  /** A box with its corners given right-to-left and bottom-to-top is
      normalised by Rect and kept. */
  lemma SwappedCornersKept()
    ensures DecodeFrame([0.0, 0.0, 0.9, 0.5, 0.5, 0.1, 0.1], 100, 100) ==
            [Detection(0, 0.9, Rectangle(Pt(10, 10), Pt(50, 50)))]
  {
    var t := [0.0, 0.0, 0.9, 0.5, 0.5, 0.1, 0.1];
    var rs := Records(t);
    assert rs == [Record(0.0, 0.0, 0.9, 0.5, 0.5, 0.1, 0.1)];
    var cs := Candidates(rs, 100, 100);
    assert cs == [Detection(0, 0.9, Rectangle(Pt(10, 10), Pt(50, 50)))];
    DecodeComplete(cs, 100, 100, 0);
  }

  /** A record whose two x coordinates truncate to the same column passes the
      interior test with a box of zero width. */
  lemma ZeroWidthBoxKept()
    ensures DecodeFrame([0.0, 0.0, 0.9, 0.5, 0.1, 0.5, 0.5], 100, 100) ==
            [Detection(0, 0.9, Rectangle(Pt(50, 10), Pt(50, 50)))]
  {
    var t := [0.0, 0.0, 0.9, 0.5, 0.1, 0.5, 0.5];
    var rs := Records(t);
    assert rs == [Record(0.0, 0.0, 0.9, 0.5, 0.1, 0.5, 0.5)];
    var cs := Candidates(rs, 100, 100);
    assert cs == [Detection(0, 0.9, Rectangle(Pt(50, 10), Pt(50, 50)))];
    DecodeComplete(cs, 100, 100, 0);
  }

  /** Arg-max picks the highest score, and the first of two equal ones. */
  lemma ArgMaxExamples()
    ensures ArgMax([0.1, 0.9, 0.3]) == Some(1)
    ensures ArgMax([0.5, 0.5]) == Some(0)
    ensures ArgMax([]) == None
  {
    FirstMaxUnique([0.1, 0.9, 0.3], ArgMax([0.1, 0.9, 0.3]).value, 1);
    FirstMaxUnique([0.5, 0.5], ArgMax([0.5, 0.5]).value, 0);
  }

  /** Scores peaking at "Male", "20-36" and "Happy" give those texts in
      presentation order. */
  lemma FaceLabelsExample()
    ensures FaceLabels([0.0, 0.0, 0.0, 1.0, 0.0, 0.0, 0.0],
                       [0.0, 0.0, 0.0, 0.0, 1.0, 0.0, 0.0, 0.0],
                       [1.0, 0.0]) == Ok(["Male", "20-36", "Happy"])
  {
    var e := [0.0, 0.0, 0.0, 1.0, 0.0, 0.0, 0.0];
    var a := [0.0, 0.0, 0.0, 0.0, 1.0, 0.0, 0.0, 0.0];
    var g := [1.0, 0.0];
    FirstMaxUnique(e, ArgMax(e).value, 3);
    FirstMaxUnique(a, ArgMax(a).value, 4);
    FirstMaxUnique(g, ArgMax(g).value, 0);
  }

  /** A gender classifier with a third output whose score wins faults with
      an out-of-range index instead of producing a text. */
  lemma MisalignedGenderFaults()
    ensures FaceLabels([1.0], [1.0], [0.0, 0.0, 1.0]) == Err(IndexOutOfRange(Gender, 2))
  {
    FirstMaxUnique([0.0, 0.0, 1.0], ArgMax([0.0, 0.0, 1.0]).value, 2);
  }

  /** Texts "Male", "20-36", "Happy" beside a box with top edge 50 and right
      edge 200, at text height 20, are anchored at (200, 70), (200, 90) and
      (200, 110). */
  lemma LayoutExample(left: int, bottom: int)
    ensures Anchors(Rectangle(Pt(left, 50), Pt(200, bottom)), ["Male", "20-36", "Happy"], _ => 20) ==
            [Pt(200, 70), Pt(200, 90), Pt(200, 110)]
  {
  }

  /** Truncation toward zero: -0.5 becomes 0, not -1. */
  lemma TruncNegativeExample()
    ensures Trunc(-0.5) == 0 && (-0.5).Floor == -1
  {
  }
}
